=== FILE: README.md ===
# Emotion-Pix movie lookup, modelled in Dafny

Emotion-Pix is a small Flask application: a user uploads a photo, a face
emotion detector names an emotion, the emotion picks a movie genre, and a
movie search API supplies recommendations. Users can also search movies by
title. This project models the application's own logic in `app.py`:

- the two SQLite response caches (`movie_cache` keyed by genre and
  `search_cache` keyed by search string), with their one-hour freshness rule
  and replace-on-key writes (`Cache`);
- the fetch-or-populate flows on top of them: `get_movie_recommendations`
  with the `/get_movies` endpoint, and the `/search_movie` endpoint (`Resolve`);
- the loops that turn provider records into display-ready movies, dropping
  unusable records, shortening long descriptions and building trailer
  links (`Records`);
- the password rules `password_issues` and `is_valid_password` (`Passwords`);
- the label tables `emotion_to_genre` and the detector's `emotion_map`
  (`Labels`).

Supporting modules: `Wrappers` (`Option`, `Result`), `Json` (decoded JSON
values, Python truthiness, `len`, `dict.get`) and `Text` (Python whitespace,
the regular-expression character classes, `str.strip`, `str.replace(' ', '+')`
and description shortening).

The model is functional. A cache table is a `map` from key to an entry
holding the payload and its write time. The clock, the health of the
database and the provider's answer are all parameters of each request.
Provider records are arbitrary JSON values, so the exceptions the Python
loops raise on values of the wrong type (`len` of a number, list plus
string, `.replace` on a non-string) are kept as a `Failure` result.

Some consequences of the code worth knowing:

- an empty cached list is falsy, so it counts as a miss and the provider
  is asked again (`Resolve.EmptyAnswerIsRefetched`);
- the genre path caches the provider's raw records and normalises them on
  every request, so with the database working an answer the loop raises on
  is served, and raises, for the rest of the hour
  (`Resolve.RaisingAnswerRepeats`);
- a malformed record is not always dropped: a dict record with a truthy
  title raises when its description is a truthy number or boolean, or a
  list or dict of more than 100 items, and a truthy non-string title
  raises when the record is otherwise kept and the trailer link must be
  synthesised (always on the genre path, on the search path only without a
  truthy provider link); only well-typed records are guaranteed to be dropped quietly
  (`Records.WellTypedNeverRaises`);
- records with a falsy description are dropped too, and the genre path
  always synthesises the trailer link, ignoring the provider's one.

`is_valid_password` is not called anywhere; `password_issues` decides
registration. The two agree on every password without a line break
(`Passwords.ValidIffNoIssues`) and differ on some passwords containing one:
the pattern's `.` does not match `\n`, so its lookaheads and its length run
only see the characters before the first line break, while the rules count
the whole password. `Abcde1!` followed by a line break has no issues, yet
only seven characters precede the break, so the pattern rejects it
(`Passwords.TrailingNewlineDisagrees`).

## Model

| member | source | states |
|---|---|---|
| `Cache.Stamp` | app.py:175-178 | the stored write time is the clock with its microseconds dropped: a whole second, at most the clock, less than a second behind it |
| `Cache.Lookup` | app.py:162-166 | safety of a read: a lookup only ever returns the payload stored under the requested key (the full hit condition is `Cache.LookupHitIff`) |
| `Cache.LookupHitIff` | app.py:571-585 | a lookup returns the stored payload if and only if the read succeeds, a row exists and it is less than an hour old; otherwise it returns nothing |
| `Cache.Store` | app.py:171-181 | a successful write adds or replaces the key's whole entry with the payload and the truncated current time and touches no other key; a failed write changes nothing |
| `Cache.StaleIsAbsent` | app.py:162-169 | a row older than an hour reads exactly like a missing row |
| `Cache.MissIsPermanent` | app.py:165 | once a key misses, it keeps missing as the clock advances, until it is written again |
| `Cache.LookupAfterStore` | app.py:587-597 | after a write, the written key reads back the new payload while the truncated write time is under an hour old, and every other key reads as before |
| `Cache.FreshnessBounds` | app.py:164-178 | with the database working, a written entry is served for at least 3599 seconds and a microsecond, and never an hour or more after the write |
| `Cache.LastWriteWins` | app.py:591-594 | a second write to a key that succeeds replaces the first entirely, whether or not the first succeeded |
| `Text.Strip` | app.py:601 | the stripped query is the one slice of the input that neither starts nor ends with whitespace and outside of which there is only whitespace |
| `Text.StripEmptyIff` | app.py:601-603 | a query is treated as empty exactly when it consists of whitespace only |
| `Text.StripIdempotent` | app.py:601 | stripping an already stripped query changes nothing |
| `Text.ReplaceSpaces` | app.py:567 | the title keeps its length, every space becomes a plus sign, every other character stays, and no space remains |
| `Text.Shorten` | app.py:560-561 | a description ends up at most 100 characters long; one of at most 100 is unchanged; a longer one becomes its first 97 characters and an ellipsis |
| `Text.ShortenIdempotent` | app.py:646-647 | shortening a shortened description changes nothing |
| `Records.TrailerLink` | app.py:567 | the synthesised link is the video search prefix, the title with spaces as plus signs, and `+trailer`; it contains no space |
| `Records.ShortenDescription` | app.py:557-561 | a falsy description is kept; a string is shortened; a list or dict of at most 100 items is kept; a truthy number or boolean, or a longer list or dict, raises; a kept truthy description has length at most 100 |
| `Records.TrailerFor` | app.py:654 | the search loop uses a truthy provider trailer as it is; otherwise, and always on the genre path, the link is synthesised from a string title, and a non-string title raises |
| `Records.JudgeSkipIff` | app.py:551-562 | a record is skipped exactly when it is not a dict, its title is falsy, or its description does not raise and its image or description is falsy |
| `Records.Judge` | app.py:551-568 | every record the loop appends is displayable: truthy title, image and description, a description of at most 100 items, a truthy trailer link, and on the genre path a string title with the synthesised link |
| `Records.JudgeKeep` | app.py:562-568 | a kept record had a truthy title, image and description; it keeps its title and image, carries its description shortened, and uses the provider trailer on the search path when that is truthy |
| `Records.Collect` | app.py:551-568 | the loop finishes exactly when no iteration raises, and then returns at most one movie per record, each produced by a kept record |
| `Records.Normalise` | app.py:636-655 | the loop finishes exactly when no record raises; it then returns at most as many movies as records, all displayable |
| `Records.KeptInOrder` | app.py:551-568 | the movies are exactly the kept records' movies in input order: a strictly increasing choice of kept records, and no kept record left out |
| `Records.FirstRaiseAborts` | app.py:636-655 | the first record that raises ends the whole loop with its exception |
| `Records.WellTypedNeverRaises` | app.py:552-561 | when every title and description is a string or null, the loop never raises |
| `Records.NormaliseRecords` | app.py:634-655 | the appending loop computes the same result as the reference definition |
| `Labels.GenreFor` | app.py:381-388 | the six listed emotions map to their genres, every other emotion to Comedy, and every genre is one of five |
| `Labels.RequestedGenre` | app.py:544-545 | a request without an emotion gets Comedy; otherwise the emotion's genre |
| `Labels.ConfusedIsLikeHappy` | app.py:545 | an unknown emotion such as `confused` gets the same genre as `happy` |
| `Labels.EmotionFor` | app.py:468-478 | a detector label maps through the table, unknown labels to `neutral`, and the result is one of the six emotions |
| `Labels.DetectedEmotion` | app.py:441-482 | an undecodable image, no face or a detector error give `neutral`; otherwise the strongest label mapped; always one of the six emotions |
| `Labels.DetectedEmotionHasListedGenre` | app.py:468-478 | the detector table's values are exactly the genre table's keys, so a detected emotion never falls back to the default genre |
| `Passwords.Issues` | app.py:216-226 | at most five rules are listed, every listed rule is failed by the password, and they appear in checking order, each at most once |
| `Passwords.IssuesAreFailedRules` | app.py:216-225 | a rule is listed if and only if the password fails it |
| `Passwords.PasswordIssues` | app.py:213-226 | at most five messages, one per listed rule in the same order |
| `Passwords.NoIssuesIffAllRulesHold` | app.py:215-226 | no issue is listed exactly when the password satisfies all five rules |
| `Passwords.IsValidPassword` | app.py:198-210 | an empty password is rejected; the pattern's lookaheads search up to the first line break, the length run must reach the end or a final line break; whatever it accepts is at least eight characters long, contains every class and has no issues |
| `Passwords.ValidIffNoIssues` | app.py:198-226 | for a password without a line break, the pattern accepts it exactly when no issue is listed |
| `Passwords.TrailingNewlineDisagrees` | app.py:207-210 | `Abcde1!` followed by a line break has no issues yet the pattern rejects it |
| `Resolve.Recommend` | app.py:487-525 | a fresh non-empty cached list is returned without asking the provider; the provider is asked exactly on a miss with credentials set; missing credentials or a failed request return an empty list and leave the cache alone; an answer's `results` (or an empty list) is returned and cached under the genre |
| `Resolve.RecommendWritesThrough` | app.py:519-522 | with the database working, only the genre's row can change, and after an answer it reads back as exactly the returned records |
| `Resolve.RecommendTwice` | app.py:488-490 | with the database working, after a miss answered with a non-empty list, every request within the hour returns that list from the cache without asking the provider, whatever it would answer |
| `Resolve.EmptyAnswerIsRefetched` | app.py:489 | with the database working, an empty answer is cached, yet the next request asks the provider again |
| `Resolve.MissingResultsLikeEmpty` | app.py:520 | a response without `results` behaves like one with an empty list |
| `Resolve.GetMovies` | app.py:542-569 | the reply is the normalised form of the records `get_movie_recommendations` gives for the emotion's genre: on a hit the cached records, after an answer its `results` (cached raw under the genre), otherwise an empty list with the cache untouched; every movie is displayable with the synthesised trailer link; only the genre's row can change |
| `Resolve.RaisingAnswerRepeats` | app.py:519-522 | with the database working, an answer the loop raises on is cached raw, so the same request raises again for the rest of the hour without asking the provider |
| `Resolve.SearchMovie` | app.py:599-659 | an empty stripped query returns nothing and touches nothing; a fresh non-empty cached list is returned as it is without asking the provider; an answer is normalised (`results` missing counts as an empty list) and that outcome is returned, and stored under the stripped query when it succeeds; only the query's row can change; a raising loop writes nothing; missing credentials or a failed request return an empty list and write nothing |
| `Resolve.SearchKeepsTableDisplayable` | app.py:657 | a search keeps every cached search list displayable, so every search reply, cached or not, is displayable |
| `Resolve.SearchTwice` | app.py:605-607 | with the database working, after a miss whose answer normalises to a non-empty list, the same search within the hour returns that list from the cache without asking the provider |
| `Resolve.PaddedQuerySharesEntry` | app.py:601-605 | a query and its stripped form get the same reply and use the same cache entry |

## Left out

- Flask routing, sessions, `flash`, templates, the upload file-name check and the no-cache response headers (app.py:372-379, 527-540, 661-684): framework glue.
- The Supabase client set-up and key-format warnings, login, registration, confirmation resend and the sign-up retry with `time.sleep` (app.py:30-95, 243-362): calls into an external authentication service.
- Loading the emotion model, decoding the image, running the face detector and choosing the highest float score (app.py:97-117, 437-465): image and machine-learning libraries; `Labels.DetectedEmotion` takes how detection ended as a parameter.
- The SQLite connection and `init_db` (app.py:131-153): JSON (de)serialisation of payloads is taken as the identity, and the text timestamp as integer microseconds with the seconds kept; naive local time across a daylight-saving change is not modelled.
- A corrupted row that fails `json.loads` or `strptime` is folded into a failed read, which the model already treats as a miss.
- The HTTP request, its headers and query parameters (app.py:496-518, 613-629): the provider is an abstract answer. A response body that is not a JSON object, or a `results` value that is not a list, is not modelled.
- `email_validator`, werkzeug password hashing and the `users.json` helpers (app.py:125-129, 183-241): external libraries and file I/O.
- config.py: environment reads and a start-up error only.
- Concurrent requests: the race between one request's lookup and another's write.
- Resolve.Recommend, Resolve.SearchMovie and Resolve.GetMovies (through `Recommend`): read the clock once per request; the source reads it separately for the lookup and the write, which differ by the provider call's duration.
- Passwords.Issues: `\d` and `\w` are modelled on ASCII only; Python also matches non-ASCII digits and letters, which this model counts as special characters.
- Records.ShortenDescription: the exception kind is approximated as `TypeError` for every raising description; slicing a long dict raises `TypeError` before Python 3.12 and `KeyError` from 3.12 on, and the model only promises that it raises.
- Json numbers are one kind of value whose only relevant property is being zero; Python strings holding lone surrogates are not modelled.

=== FILE: cache.dfy ===
/**
 * The two SQLite response caches (`movie_cache` keyed by genre and
 * `search_cache` keyed by search string), as maps from key to the last
 * written entry. Both tables have the same shape and the same one-hour
 * freshness rule; only the payload type differs, so the table is generic.
 */
module Cache {
  import opened Wrappers

  /** The clock is read in microseconds, like `datetime.now()`. */
  const MicrosPerSecond: int := 1_000_000

  /** One hour: entries younger than this are served. */
  const FreshWindow: int := 3600 * MicrosPerSecond

  /** One row: the payload and the write time as it was stored. */
  datatype Entry<P> = Entry(payload: P, writtenAt: int)

  /** A table: `PRIMARY KEY` means at most one entry per key. */
  type Table<P> = map<string, Entry<P>>

  /**
   * Whether the database calls succeed. A failing read is swallowed and
   * reported as a miss; a failing write is swallowed and changes nothing.
   */
  datatype Storage = Storage(readsSucceed: bool, writesSucceed: bool)

  const Healthy: Storage := Storage(true, true)

  /**
   * The timestamp a write records: the write time formatted with
   * `'%Y-%m-%d %H:%M:%S'`, so the microseconds are dropped.
   */
  function Stamp(now: int): (t: int)
    ensures t <= now < t + MicrosPerSecond
    ensures t % MicrosPerSecond == 0
  {
    now - now % MicrosPerSecond
  }

  /** An entry is fresh while less than an hour has passed since its stored time; a clock that went backwards counts as fresh. */
  predicate Fresh<P>(e: Entry<P>, now: int) {
    now - e.writtenAt < FreshWindow
  }

  /**
   * Reading a key (`get_cached_movies`, `get_cached_search_results`): the
   * payload of a fresh row, or nothing for a missing or stale row or a failed read.
   */
  function Lookup<P>(t: Table<P>, key: string, now: int, io: Storage): (r: Option<P>)
    ensures r.Some? ==> key in t && r.value == t[key].payload
  {
    if io.readsSucceed && key in t && Fresh(t[key], now) then Some(t[key].payload) else None
  }

  /**
   * Writing a key (`store_cached_movies`, `store_cached_search_results`):
   * the whole row is replaced, stamped with the current time.
   */
  function Store<P>(t: Table<P>, key: string, payload: P, now: int, io: Storage): (t': Table<P>)
    ensures io.writesSucceed ==> t'.Keys == t.Keys + {key}
    ensures io.writesSucceed ==> t'[key] == Entry(payload, Stamp(now))
    ensures !io.writesSucceed ==> t' == t
    ensures forall k :: k in t && k != key ==> k in t' && t'[k] == t[k]
  {
    if io.writesSucceed then t[key := Entry(payload, Stamp(now))] else t
  }

  /**
   * A lookup returns a payload exactly when the read succeeds, a row exists
   * for the key and it is younger than an hour; it is then that row's payload.
   */
  lemma LookupHitIff<P>(t: Table<P>, key: string, now: int, io: Storage)
    ensures Lookup(t, key, now, io).Some? <==> io.readsSucceed && key in t && now - t[key].writtenAt < FreshWindow
    ensures Lookup(t, key, now, io).Some? ==> Lookup(t, key, now, io).value == t[key].payload
  {
  }

  /** A stale row is indistinguishable from no row at all. */
  lemma StaleIsAbsent<P>(t: Table<P>, key: string, now: int, io: Storage)
    requires key in t && !Fresh(t[key], now)
    ensures Lookup(t, key, now, io) == Lookup(t - {key}, key, now, io) == None
  {
  }

  /** Once a lookup misses, it keeps missing as the clock advances, until the next write. */
  lemma MissIsPermanent<P>(t: Table<P>, key: string, now: int, later: int, io: Storage)
    requires now <= later
    requires Lookup(t, key, now, io).None?
    ensures Lookup(t, key, later, io).None?
  {
  }

  /**
   * Reading back after a write: the written key holds the new payload
   * exactly while the truncated write time is under an hour old; every other
   * key reads as before; a failed write changes no read.
   */
  lemma LookupAfterStore<P>(t: Table<P>, key: string, payload: P, written: int, other: string, now: int, io: Storage, rio: Storage)
    ensures Lookup(Store(t, key, payload, written, io), other, now, rio) ==
      if other == key && io.writesSucceed then
        (if rio.readsSucceed && now - Stamp(written) < FreshWindow then Some(payload) else None)
      else Lookup(t, other, now, rio)
  {
  }

  /**
   * Because the seconds are truncated on write, an entry is served for at
   * least 3599 seconds plus one microsecond and for at most an hour after its write.
   */
  lemma FreshnessBounds<P>(t: Table<P>, key: string, payload: P, written: int, now: int)
    ensures written <= now && now - written <= FreshWindow - MicrosPerSecond ==>
      Lookup(Store(t, key, payload, written, Healthy), key, now, Healthy) == Some(payload)
    ensures now - written >= FreshWindow ==>
      Lookup(Store(t, key, payload, written, Healthy), key, now, Healthy) == None
  {
    LookupAfterStore(t, key, payload, written, key, now, Healthy, Healthy);
  }

  /** Replace-on-key: a second write to the same key that succeeds discards the first entirely, whatever became of the first. */
  lemma LastWriteWins<P>(t: Table<P>, key: string, p1: P, w1: int, io1: Storage, p2: P, w2: int, io2: Storage)
    requires io2.writesSucceed
    ensures Store(Store(t, key, p1, w1, io1), key, p2, w2, io2) == Store(t, key, p2, w2, io2)
  {
  }
}

=== FILE: json.dfy ===
/** JSON values as the application sees them after `json.loads` / `response.json()`. */
module Json {

  /** A decoded JSON value. Numbers are kept as reals: only whether they are zero matters here. */
  datatype Value =
    | Null
    | Bool(b: bool)
    | Num(n: real)
    | Str(s: string)
    | Arr(items: seq<Value>)
    | Obj(fields: map<string, Value>)

  /** Python truthiness: `None`, `False`, `0`, `""`, `[]` and `{}` are false, everything else true. */
  predicate Truthy(v: Value) {
    match v
    case Null => false
    case Bool(b) => b
    case Num(n) => n != 0.0
    case Str(s) => |s| > 0
    case Arr(items) => |items| > 0
    case Obj(fields) => |fields| > 0
  }

  /** Python's length is defined (does not raise `TypeError`) for strings, lists and dicts only. */
  predicate Sized(v: Value) {
    v.Str? || v.Arr? || v.Obj?
  }

  /** Python's length of a sized value. */
  function Len(v: Value): nat
    requires Sized(v)
  {
    match v
    case Str(s) => |s|
    case Arr(items) => |items|
    case Obj(fields) => |fields|
  }

  /** A field of a decoded JSON object, or `default` when the key is absent. */
  function Get(fields: map<string, Value>, key: string, default: Value): Value {
    if key in fields then fields[key] else default
  }
}

=== FILE: labels.dfy ===
/**
 * The two label tables: detector labels to the application's emotion
 * vocabulary (`emotion_map` in `detect_emotion`) and emotions to movie
 * genres (`emotion_to_genre`), each with its default.
 */
module Labels {
  import opened Wrappers

  /** `emotion_to_genre`. */
  const EmotionGenre: map<string, string> := map[
    "happy" := "Comedy",
    "sad" := "Drama",
    "anger" := "Action",
    "surprise" := "Adventure",
    "neutral" := "Drama",
    "fear" := "Horror"
  ]

  /** The genre used for an emotion the table does not list. */
  const DefaultGenre: string := "Comedy"

  /** The emotion `/get_movies` assumes when the request names none. */
  const DefaultEmotion: string := "happy"

  /** The six emotions the application knows. */
  const Emotions: set<string> := {"anger", "fear", "happy", "sad", "surprise", "neutral"}

  /** The genres a recommendation can be for. */
  const Genres: set<string> := {"Comedy", "Drama", "Action", "Adventure", "Horror"}

  /** The genre for an emotion: listed emotions by the table, every other one the default. */
  function GenreFor(emotion: string): (g: string)
    ensures emotion in EmotionGenre ==> g == EmotionGenre[emotion]
    ensures emotion !in EmotionGenre ==> g == DefaultGenre
    ensures g in Genres
  {
    if emotion in EmotionGenre then EmotionGenre[emotion] else DefaultGenre
  }

  /** The genre for the request's `emotion` parameter, which defaults to `happy` when absent. */
  function RequestedGenre(emotionArg: Option<string>): (g: string)
    ensures emotionArg.None? ==> g == "Comedy"
    ensures emotionArg.Some? ==> g == GenreFor(emotionArg.value)
  {
    GenreFor(emotionArg.GetOr(DefaultEmotion))
  }

  /** An unknown emotion gets the same genre as `happy`. */
  lemma ConfusedIsLikeHappy()
    ensures GenreFor("confused") == GenreFor("happy") == "Comedy"
  {
  }

  /** `emotion_map` in `detect_emotion`: the detector's seven labels onto the six emotions. */
  const DetectorEmotion: map<string, string> := map[
    "angry" := "anger",
    "disgust" := "anger",
    "fear" := "fear",
    "happy" := "happy",
    "sad" := "sad",
    "surprise" := "surprise",
    "neutral" := "neutral"
  ]

  /** The emotion reported whenever the detector gives nothing usable. */
  const FallbackEmotion: string := "neutral"

  /** The emotion for a detector label: listed labels by the table, every other one `neutral`. */
  function EmotionFor(detected: string): (e: string)
    ensures e in Emotions
    ensures detected in DetectorEmotion ==> e == DetectorEmotion[detected]
    ensures detected !in DetectorEmotion ==> e == FallbackEmotion
  {
    if detected in DetectorEmotion then DetectorEmotion[detected] else FallbackEmotion
  }

  /**
   * How detection ended: the image did not decode, no face was found, the
   * detector raised, or the strongest-scoring label of the first face.
   */
  datatype Detection = Undecodable | NoFace | DetectorError | Strongest(top: string)

  /** `detect_emotion`'s answer: every failure degrades to `neutral`. */
  function DetectedEmotion(d: Detection): (e: string)
    ensures e in Emotions
    ensures !d.Strongest? ==> e == FallbackEmotion
    ensures d.Strongest? ==> e == EmotionFor(d.top)
  {
    match d
    case Strongest(top) => EmotionFor(top)
    case _ => FallbackEmotion
  }

  /**
   * The detector's vocabulary is exactly the genre table's domain, so a
   * detected emotion always has its own genre and never falls to the default.
   */
  lemma DetectedEmotionHasListedGenre(d: Detection)
    ensures DetectorEmotion.Values == EmotionGenre.Keys == Emotions
    ensures DetectedEmotion(d) in EmotionGenre
    ensures GenreFor(DetectedEmotion(d)) == EmotionGenre[DetectedEmotion(d)]
  {
    assert DetectorEmotion["angry"] == "anger";
    assert DetectorEmotion["fear"] == "fear";
    assert DetectorEmotion["happy"] == "happy";
    assert DetectorEmotion["sad"] == "sad";
    assert DetectorEmotion["surprise"] == "surprise";
    assert DetectorEmotion["neutral"] == "neutral";
  }
}

=== FILE: passwords.dfy ===
/**
 * The registration password rules: `password_issues`, which lists the
 * failed rules in a fixed order, and `is_valid_password`, which runs one
 * regular expression with four lookaheads.
 */
module Passwords {
  import opened Text

  /** The character classes the rules ask for. */
  datatype CharClass = Lower | Upper | Digit | Special

  /** One password rule. */
  datatype Rule = MinLength | Needs(cls: CharClass)

  const MinimumLength: nat := 8

  /** `[a-z]`, `[A-Z]`, `\d` and `[^\w\s]`. */
  predicate InClass(c: char, cls: CharClass) {
    match cls
    case Lower => IsAsciiLower(c)
    case Upper => IsAsciiUpper(c)
    case Digit => IsDigit(c)
    case Special => !IsWordChar(c) && !IsSpace(c)
  }

  /** `re.search` with a one-class pattern: some character of `p` is in the class. */
  predicate Contains(p: string, cls: CharClass) {
    exists i :: 0 <= i < |p| && InClass(p[i], cls)
  }

  predicate Satisfies(p: string, rule: Rule) {
    match rule
    case MinLength => |p| >= MinimumLength
    case Needs(cls) => Contains(p, cls)
  }

  /** The position of a rule in the order `password_issues` checks them. */
  function Rank(rule: Rule): nat {
    match rule
    case MinLength => 0
    case Needs(Lower) => 1
    case Needs(Upper) => 2
    case Needs(Digit) => 3
    case Needs(Special) => 4
  }

  /** The failed rules, in checking order, each at most once. */
  function Issues(p: string): (r: seq<Rule>)
    ensures |r| <= 5
    ensures forall rule :: rule in r ==> !Satisfies(p, rule)
    ensures forall i, j :: 0 <= i < j < |r| ==> Rank(r[i]) < Rank(r[j])
  {
    var length := if |p| == 0 || |p| < MinimumLength then [MinLength] else [];
    var lower := if !Contains(p, Lower) then [Needs(Lower)] else [];
    var upper := if !Contains(p, Upper) then [Needs(Upper)] else [];
    var digit := if !Contains(p, Digit) then [Needs(Digit)] else [];
    var special := if !Contains(p, Special) then [Needs(Special)] else [];
    length + lower + upper + digit + special
  }

  /** A rule is listed exactly when the password fails it. */
  lemma IssuesAreFailedRules(p: string)
    ensures forall rule :: rule in Issues(p) <==> !Satisfies(p, rule)
  {
    forall rule | !Satisfies(p, rule)
      ensures rule in Issues(p)
    {
      match rule
      case MinLength =>
      case Needs(Lower) =>
      case Needs(Upper) =>
      case Needs(Digit) =>
      case Needs(Special) =>
    }
  }

  /** The message shown for a failed rule. */
  function Message(rule: Rule): string {
    match rule
    case MinLength => "At least 8 characters long"
    case Needs(Lower) => "Include at least one lowercase letter"
    case Needs(Upper) => "Include at least one uppercase letter"
    case Needs(Digit) => "Include at least one digit"
    case Needs(Special) => "Include at least one special character (e.g. !@#$%)"
  }

  /** `password_issues`: the message of each failed rule, in checking order. */
  function PasswordIssues(p: string): (msgs: seq<string>)
    ensures |msgs| == |Issues(p)| <= 5
    ensures forall i :: 0 <= i < |msgs| ==> msgs[i] == Message(Issues(p)[i])
  {
    seq(|Issues(p)|, i requires 0 <= i < |Issues(p)| => Message(Issues(p)[i]))
  }

  /** No issue is listed exactly when the password satisfies all five rules. */
  lemma NoIssuesIffAllRulesHold(p: string)
    ensures PasswordIssues(p) == [] <==> forall rule :: Satisfies(p, rule)
  {
    IssuesAreFailedRules(p);
    var r := Issues(p);
    if r != [] {
      assert r[0] in r;
    }
  }

  /**
   * A lookahead `(?=.*X)` at the start of the string: a character of class X
   * occurs before the first line break, since `.` does not match `\n`.
   */
  predicate LookaheadFinds(p: string, cls: CharClass) {
    exists i :: 0 <= i < |p| && InClass(p[i], cls) && '\n' !in p[..i]
  }

  /**
   * `.{8,}$` from the start: at least eight characters other than `\n`
   * that reach the end of the string, or a final `\n` that `$` may stand before.
   */
  predicate LongLineToEnd(p: string) {
    exists n :: MinimumLength <= n <= |p| && '\n' !in p[..n] && (n == |p| || (n == |p| - 1 && p[n] == '\n'))
  }

  /**
   * `is_valid_password`: a non-empty password matching the whole pattern.
   * Whatever the pattern accepts meets every rule, so it has no issues.
   */
  function IsValidPassword(p: string): (ok: bool)
    ensures ok ==> |p| >= MinimumLength && forall cls :: Contains(p, cls)
    ensures ok ==> PasswordIssues(p) == []
  {
    NoIssuesIffAllRulesHold(p);
    (&& |p| > 0
     && LookaheadFinds(p, Lower)
     && LookaheadFinds(p, Upper)
     && LookaheadFinds(p, Digit)
     && LookaheadFinds(p, Special)
     && LongLineToEnd(p))
  }

  /** On a password without line breaks the pattern and the issue list agree. */
  lemma ValidIffNoIssues(p: string)
    requires '\n' !in p
    ensures IsValidPassword(p) <==> PasswordIssues(p) == []
  {
    NoIssuesIffAllRulesHold(p);
    forall cls: CharClass
      ensures LookaheadFinds(p, cls) <==> Contains(p, cls)
    {
      if Contains(p, cls) {
        var i :| 0 <= i < |p| && InClass(p[i], cls);
        assert '\n' !in p[..i];
      }
    }
    if |p| >= MinimumLength {
      assert p[..|p|] == p;
      assert LongLineToEnd(p);
    }
    if IsValidPassword(p) {
      assert Satisfies(p, MinLength);
      forall rule: Rule
        ensures Satisfies(p, rule)
      {
      }
    }
  }

  /**
   * With a final line break they disagree: `Abcde1!` followed by `\n` has
   * eight characters and every required class, so no issue is listed, but
   * only seven characters precede the break, so the pattern rejects it.
   */
  lemma TrailingNewlineDisagrees()
    ensures PasswordIssues("Abcde1!\n") == []
    ensures !IsValidPassword("Abcde1!\n")
  {
    var p := "Abcde1!\n";
    assert InClass(p[1], Lower) && InClass(p[0], Upper) && InClass(p[5], Digit) && InClass(p[6], Special);
    assert forall rule :: Satisfies(p, rule);
    NoIssuesIffAllRulesHold(p);
    forall n | MinimumLength <= n <= |p|
      ensures '\n' in p[..n]
    {
      assert p[..n][7] == '\n';
    }
  }
}

=== FILE: records.dfy ===
/**
 * Normalisation of provider records into display-ready movies: the two
 * loops in `get_movies` and `search_movie`. Records are arbitrary JSON
 * values, so the model keeps the Python exceptions the loops can raise on
 * values of the wrong type.
 */
module Records {
  import opened Wrappers
  import opened Json
  import opened Text

  /** The exceptions a loop body can raise on a malformed record. */
  datatype PyError = TypeError | AttributeError

  /** Which of the two loops: the genre loop ignores the provider's trailer, the search loop prefers it. */
  datatype Path = ByGenre | BySearch

  /** A normalised movie: the dict the loops append. */
  datatype Movie = Movie(title: Value, description: Value, image: Value, trailer: Value)

  /** What one iteration of a loop does with one record. */
  datatype Verdict = Skip | Keep(movie: Movie) | Raise(error: PyError)

  const TrailerSearchPrefix: string := "https://www.youtube.com/results?search_query="
  const TrailerSuffix: string := "+trailer"
  const NoDescription: string := "No description available."

  /**
   * The synthesised trailer link: a video-site search for the title with its
   * spaces turned into plus signs, followed by `+trailer`.
   */
  function TrailerLink(title: string): (url: string)
    ensures ' ' !in url
    ensures |url| == |TrailerSearchPrefix| + |title| + |TrailerSuffix|
    ensures url[..|TrailerSearchPrefix|] == TrailerSearchPrefix
    ensures url[|url| - |TrailerSuffix|..] == TrailerSuffix
    ensures forall i :: 0 <= i < |title| ==>
      url[|TrailerSearchPrefix| + i] == (if title[i] == ' ' then '+' else title[i])
  {
    assert ' ' !in TrailerSearchPrefix && ' ' !in TrailerSuffix;
    TrailerSearchPrefix + ReplaceSpaces(title) + TrailerSuffix
  }

  /** The record's `primaryTitle`, or null when absent. */
  function TitleOf(raw: Value): Value
    requires raw.Obj?
  {
    Get(raw.fields, "primaryTitle", Null)
  }

  /** The record's `description`, or the stock text when absent (an explicit null stays null). */
  function DescriptionOf(raw: Value): Value
    requires raw.Obj?
  {
    Get(raw.fields, "description", Str(NoDescription))
  }

  /** The record's `primaryImage`, or null when absent. */
  function ImageOf(raw: Value): Value
    requires raw.Obj?
  {
    Get(raw.fields, "primaryImage", Null)
  }

  /** The record's `trailerUrl`, or null when absent. */
  function TrailerOf(raw: Value): Value
    requires raw.Obj?
  {
    Get(raw.fields, "trailerUrl", Null)
  }

  /**
   * Shortening a truthy description longer than 100 elements.
   * `len` raises on a truthy number or boolean; the slice-and-concatenate
   * raises on a long list or dict; a long string is shortened.
   */
  function ShortenDescription(d: Value): (r: Result<Value, PyError>)
    ensures r.Success? && Truthy(d) ==> Sized(d) && Sized(r.value) && Len(r.value) <= DescriptionLimit && Truthy(r.value)
    ensures r.Success? && d.Str? ==> r.value == Str(Shorten(d.s))
    ensures r.Success? && !d.Str? ==> r.value == d
    ensures r.Failure? <==> Truthy(d) && (!Sized(d) || (!d.Str? && Len(d) > DescriptionLimit))
  {
    if !Truthy(d) then Success(d)
    else match d
      case Str(s) => Success(Str(Shorten(s)))
      case Arr(items) => if |items| > DescriptionLimit then Failure(TypeError) else Success(d)
      case Obj(fields) => if |fields| > DescriptionLimit then Failure(TypeError) else Success(d)
      case _ => Failure(TypeError)
  }

  /**
   * The `trailerUrl` the loop writes. Synthesising it calls `.replace` on the
   * title, which raises unless the title is a string.
   */
  function TrailerFor(title: Value, given: Value, path: Path): (r: Result<Value, PyError>)
    ensures r.Success? ==> Truthy(r.value)
    ensures path == BySearch && Truthy(given) ==> r == Success(given)
    ensures (path == ByGenre || !Truthy(given)) ==>
      (r.Success? <==> title.Str?) && (title.Str? ==> r.value == Str(TrailerLink(title.s)))
  {
    if path == BySearch && Truthy(given) then Success(given)
    else if title.Str? then Success(Str(TrailerLink(title.s)))
    else Failure(AttributeError)
  }

  /**
   * What every appended movie satisfies: a truthy title, image and
   * description, a description of at most 100 elements, and a truthy trailer
   * link, which on the genre path is always the synthesised one.
   */
  predicate Displayable(m: Movie, path: Path) {
    && Truthy(m.title)
    && Truthy(m.image)
    && Truthy(m.description)
    && Sized(m.description)
    && Len(m.description) <= DescriptionLimit
    && Truthy(m.trailer)
    && (path == ByGenre ==> m.title.Str? && m.trailer == Str(TrailerLink(m.title.s)))
  }

  predicate AllDisplayable(ms: seq<Movie>, path: Path) {
    forall i :: 0 <= i < |ms| ==> Displayable(ms[i], path)
  }

  /** One iteration of the loop body, in the source's order of tests. */
  function Judge(raw: Value, path: Path): (v: Verdict)
    ensures v.Keep? ==> Displayable(v.movie, path)
  {
    if !raw.Obj? || !Truthy(TitleOf(raw)) then Skip
    else match ShortenDescription(DescriptionOf(raw))
      case Failure(e) => Raise(e)
      case Success(description) =>
        if !(Truthy(ImageOf(raw)) && Truthy(description)) then Skip
        else match TrailerFor(TitleOf(raw), TrailerOf(raw), path)
          case Failure(e) => Raise(e)
          case Success(url) => Keep(Movie(TitleOf(raw), description, ImageOf(raw), url))
  }

  /**
   * A record is skipped exactly when it is not a dict, has a falsy title,
   * or (its description not raising) has a falsy image or description.
   */
  lemma JudgeSkipIff(raw: Value, path: Path)
    ensures Judge(raw, path).Skip? <==>
      || !raw.Obj?
      || !Truthy(TitleOf(raw))
      || (ShortenDescription(DescriptionOf(raw)).Success? && !(Truthy(ImageOf(raw)) && Truthy(DescriptionOf(raw))))
  {
  }

  /**
   * A kept record carries its own title and image, its description
   * shortened, and a trailer link chosen by the path; it is displayable.
   */
  lemma JudgeKeep(raw: Value, path: Path)
    requires Judge(raw, path).Keep?
    ensures raw.Obj? && Truthy(TitleOf(raw)) && Truthy(ImageOf(raw)) && Truthy(DescriptionOf(raw))
    ensures Judge(raw, path).movie.title == TitleOf(raw)
    ensures Judge(raw, path).movie.image == ImageOf(raw)
    ensures DescriptionOf(raw).Str? ==> Judge(raw, path).movie.description == Str(Shorten(DescriptionOf(raw).s))
    ensures path == BySearch && Truthy(TrailerOf(raw)) ==> Judge(raw, path).movie.trailer == TrailerOf(raw)
  {
  }

  /** The verdict on each record, in order. */
  function Verdicts(raws: seq<Value>, path: Path): seq<Verdict> {
    seq(|raws|, k requires 0 <= k < |raws| => Judge(raws[k], path))
  }

  /**
   * Running the loop over a sequence of verdicts: the first `Raise` aborts
   * with its exception, `Skip` adds nothing, `Keep` appends its movie.
   */
  function Collect(vs: seq<Verdict>): (r: Result<seq<Movie>, PyError>)
    ensures r.Success? <==> forall k :: 0 <= k < |vs| ==> !vs[k].Raise?
    ensures r.Success? ==> |r.value| <= |vs|
    ensures r.Success? ==> forall i :: 0 <= i < |r.value| ==> Keep(r.value[i]) in vs
  {
    if |vs| == 0 then Success([])
    else
      match Collect(vs[..|vs| - 1])
      case Failure(e) => Failure(e)
      case Success(ms) =>
        match vs[|vs| - 1]
        case Raise(e) => Failure(e)
        case Skip => Success(ms)
        case Keep(m) => Success(ms + [m])
  }

  /**
   * The loop over `results`, as a reference definition: it finishes exactly
   * when no record raises, and then every movie it returns is displayable.
   */
  function Normalise(raws: seq<Value>, path: Path): (r: Result<seq<Movie>, PyError>)
    ensures r.Success? <==> forall k :: 0 <= k < |raws| ==> !Judge(raws[k], path).Raise?
    ensures r.Success? ==> |r.value| <= |raws| && AllDisplayable(r.value, path)
  {
    var vs := Verdicts(raws, path);
    assert |vs| == |raws| && forall k :: 0 <= k < |raws| ==> vs[k] == Judge(raws[k], path);
    Collect(vs)
  }

  /**
   * `idx` lists, in increasing order, the positions of the `Keep` verdicts
   * in `vs`, and `ms` their movies.
   */
  ghost predicate KeepIndex(vs: seq<Verdict>, idx: seq<nat>, ms: seq<Movie>) {
    && |idx| == |ms|
    && (forall i :: 0 <= i < |idx| ==> idx[i] < |vs| && vs[idx[i]] == Keep(ms[i]))
    && (forall i, j :: 0 <= i < j < |idx| ==> idx[i] < idx[j])
    && (forall k :: 0 <= k < |vs| && vs[k].Keep? ==> k in idx)
  }

  /** Appending a verdict that does not raise extends the index. */
  lemma KeepIndexExtend(vs: seq<Verdict>, idx: seq<nat>, ms: seq<Movie>, v: Verdict)
    requires KeepIndex(vs, idx, ms) && !v.Raise?
    ensures v.Keep? ==> KeepIndex(vs + [v], idx + [|vs|], ms + [v.movie])
    ensures v.Skip? ==> KeepIndex(vs + [v], idx, ms)
  {
    var vs' := vs + [v];
    assert forall k :: 0 <= k < |vs| ==> vs'[k] == vs[k];
  }

  /** One more verdict after verdicts that did not raise. */
  lemma CollectSnoc(vs: seq<Verdict>, v: Verdict)
    requires Collect(vs).Success?
    ensures Collect(vs + [v]) ==
      match v
      case Raise(e) => Failure(e)
      case Skip => Collect(vs)
      case Keep(m) => Success(Collect(vs).value + [m])
  {
    assert (vs + [v])[..|vs|] == vs;
  }

  /** `CollectSnoc` for a prefix of a longer sequence of verdicts. */
  lemma CollectExtend(vs: seq<Verdict>, i: nat)
    requires i < |vs| && Collect(vs[..i]).Success?
    ensures Collect(vs[..i + 1]) ==
      match vs[i]
      case Raise(e) => Failure(e)
      case Skip => Collect(vs[..i])
      case Keep(m) => Success(Collect(vs[..i]).value + [m])
  {
    assert vs[..i + 1] == vs[..i] + [vs[i]];
    CollectSnoc(vs[..i], vs[i]);
  }

  /** The positions of the `Keep` verdicts, in order, are where the collected movies come from. */
  lemma {:induction false} CollectedInOrder(vs: seq<Verdict>) returns (idx: seq<nat>)
    requires Collect(vs).Success?
    ensures KeepIndex(vs, idx, Collect(vs).value)
  {
    if |vs| == 0 {
      idx := [];
    } else {
      var n := |vs| - 1;
      var init, v := vs[..n], vs[n];
      assert vs == init + [v];
      var prev := CollectedInOrder(init);
      CollectSnoc(init, v);
      KeepIndexExtend(init, prev, Collect(init).value, v);
      idx := if v.Keep? then prev + [n] else prev;
    }
  }

  /**
   * Exactly the kept records appear, in input order: the i-th movie is the
   * one the i-th kept record produces, and no kept record is missing.
   */
  lemma KeptInOrder(raws: seq<Value>, path: Path) returns (idx: seq<nat>)
    requires Normalise(raws, path).Success?
    ensures |idx| == |Normalise(raws, path).value|
    ensures forall i :: 0 <= i < |idx| ==>
      idx[i] < |raws| && Judge(raws[idx[i]], path) == Keep(Normalise(raws, path).value[i])
    ensures forall i, j :: 0 <= i < j < |idx| ==> idx[i] < idx[j]
    ensures forall k :: 0 <= k < |raws| && Judge(raws[k], path).Keep? ==> k in idx
  {
    idx := CollectedInOrder(Verdicts(raws, path));
    assert KeepIndex(Verdicts(raws, path), idx, Normalise(raws, path).value);
  }

  /** Once a prefix of the verdicts raises, the whole loop ends with that exception. */
  lemma {:induction false} FirstRaiseAborts(vs: seq<Verdict>, j: nat)
    requires j <= |vs| && Collect(vs[..j]).Failure?
    ensures Collect(vs) == Collect(vs[..j])
    decreases |vs| - j
  {
    if j < |vs| {
      assert vs[..j + 1][..j] == vs[..j];
      FirstRaiseAborts(vs, j + 1);
    } else {
      assert vs[..j] == vs;
    }
  }

  /** The field shape the provider documents: a title and description that are strings or null. */
  predicate WellTyped(raw: Value) {
    raw.Obj? ==>
      && (TitleOf(raw).Str? || TitleOf(raw).Null?)
      && (DescriptionOf(raw).Str? || DescriptionOf(raw).Null?)
  }

  /** On well-typed records the loops never raise: malformed entries are only dropped. */
  lemma WellTypedNeverRaises(raws: seq<Value>, path: Path)
    requires forall k :: 0 <= k < |raws| ==> WellTyped(raws[k])
    ensures Normalise(raws, path).Success?
  {
  }

  /** The source's loop over the provider records, appending as it goes. */
  method NormaliseRecords(raws: seq<Value>, path: Path) returns (r: Result<seq<Movie>, PyError>)
    ensures r == Normalise(raws, path)
  {
    ghost var vs := Verdicts(raws, path);
    var movies: seq<Movie> := [];
    var i := 0;
    while i < |raws|
      invariant 0 <= i <= |raws|
      invariant Collect(vs[..i]) == Success(movies)
    {
      var verdict := Judge(raws[i], path);
      assert verdict == vs[i];
      CollectExtend(vs, i);
      if verdict.Raise? {
        FirstRaiseAborts(vs, i + 1);
        return Failure(verdict.error);
      }
      if verdict.Keep? {
        movies := movies + [verdict.movie];
      }
      i := i + 1;
    }
    assert vs[..i] == vs;
    r := Success(movies);
  }
}

=== FILE: resolve.dfy ===
/**
 * The fetch-or-populate flows on top of the caches: the genre path
 * (`get_movie_recommendations` under `/get_movies`) and the free-text
 * search path (`/search_movie`). The clock, the storage health and the
 * provider's answer are parameters; a reply carries the table after the
 * request and whether the provider was asked.
 */
module Resolve {
  import opened Wrappers
  import opened Json
  import opened Text
  import opened Cache
  import opened Records
  import Labels

  /**
   * The movie provider as seen by one request: credentials missing (checked
   * before any call), the request failed (network error, timeout, non-2xx
   * status, undecodable body), or a JSON object whose `results` list may be absent.
   */
  datatype Upstream = NotConfigured | Failed | Answered(results: Option<seq<Value>>)

  /** Whether a lookup counts as a hit: a missing, stale or unreadable entry and an empty cached list are all misses. */
  predicate IsHit<P>(cached: Option<seq<P>>) {
    cached.Some? && |cached.value| > 0
  }

  /** What `get_movie_recommendations` returns: raw provider records, which are also what it caches. */
  datatype Fetched = Fetched(table: Table<seq<Value>>, records: seq<Value>, consulted: bool)

  /** `get_movie_recommendations`: the cached list on a hit, otherwise the provider's answer, cached as it came. */
  function Recommend(t: Table<seq<Value>>, genre: string, now: int, io: Storage, up: Upstream): (r: Fetched)
    ensures IsHit(Lookup(t, genre, now, io)) ==> r == Fetched(t, Lookup(t, genre, now, io).value, false)
    ensures r.consulted <==> !IsHit(Lookup(t, genre, now, io)) && !up.NotConfigured?
    ensures !up.Answered? ==> r.table == t
    ensures !up.Answered? && !IsHit(Lookup(t, genre, now, io)) ==> r.records == []
    ensures r.consulted && up.Answered? ==> r.records == up.results.GetOr([]) && r.table == Store(t, genre, r.records, now, io)
  {
    var cached := Lookup(t, genre, now, io);
    if IsHit(cached) then Fetched(t, cached.value, false)
    else match up
      case NotConfigured => Fetched(t, [], false)
      case Failed => Fetched(t, [], true)
      case Answered(results) =>
        var records := results.GetOr([]);
        Fetched(Store(t, genre, records, now, io), records, true)
  }

  /**
   * Only the requested genre's row can change, and a provider answer read
   * back at once gives exactly the records just returned.
   */
  lemma RecommendWritesThrough(t: Table<seq<Value>>, genre: string, now: int, up: Upstream)
    ensures var r := Recommend(t, genre, now, Healthy, up);
      && r.table.Keys <= t.Keys + {genre}
      && (forall k :: k in t && k != genre ==> r.table[k] == t[k])
      && (r.consulted && up.Answered? ==> Lookup(r.table, genre, now, Healthy) == Some(r.records))
  {
    var r := Recommend(t, genre, now, Healthy, up);
    if r.consulted && up.Answered? {
      LookupAfterStore(t, genre, r.records, now, genre, now, Healthy, Healthy);
    }
  }

  /**
   * After a miss answered with a non-empty list, the rest of the hour is
   * served from the cache: same records, no provider call, whatever the
   * provider would now answer.
   */
  lemma RecommendTwice(t: Table<seq<Value>>, genre: string, now: int, results: seq<Value>, later: int, up: Upstream)
    requires !IsHit(Lookup(t, genre, now, Healthy))
    requires |results| > 0
    requires later - Stamp(now) < FreshWindow
    ensures var first := Recommend(t, genre, now, Healthy, Answered(Some(results)));
      && first.consulted
      && Recommend(first.table, genre, later, Healthy, up) == Fetched(first.table, results, false)
  {
    var first := Recommend(t, genre, now, Healthy, Answered(Some(results)));
    LookupAfterStore(t, genre, results, now, genre, later, Healthy, Healthy);
  }

  /**
   * An empty answer is cached, but an empty cached list counts as a miss,
   * so the next request within the hour asks the provider again.
   */
  lemma EmptyAnswerIsRefetched(t: Table<seq<Value>>, genre: string, now: int, later: int, up: Upstream)
    requires !IsHit(Lookup(t, genre, now, Healthy))
    requires !up.NotConfigured?
    ensures var first := Recommend(t, genre, now, Healthy, Answered(Some([])));
      && first.records == []
      && genre in first.table && first.table[genre].payload == []
      && Recommend(first.table, genre, later, Healthy, up).consulted
  {
  }

  /** A response without `results` is handled like an empty `results` list. */
  lemma MissingResultsLikeEmpty(t: Table<seq<Value>>, genre: string, now: int, io: Storage)
    ensures Recommend(t, genre, now, io, Answered(None)) == Recommend(t, genre, now, io, Answered(Some([])))
  {
  }

  /** A reply of one of the two endpoints: the table after the request and the `movies` list or the exception. */
  datatype Reply<P> = Reply(table: Table<P>, movies: Result<seq<Movie>, PyError>, consulted: bool)

  /**
   * `/get_movies`: the requested emotion's genre, its raw records from the
   * cache or the provider, normalised on every request.
   */
  function GetMovies(t: Table<seq<Value>>, emotionArg: Option<string>, now: int, io: Storage, up: Upstream): (r: Reply<seq<Value>>)
    ensures var f := Recommend(t, Labels.RequestedGenre(emotionArg), now, io, up);
      r == Reply(f.table, Normalise(f.records, ByGenre), f.consulted)
    ensures var cached := Lookup(t, Labels.RequestedGenre(emotionArg), now, io);
      IsHit(cached) ==> r == Reply(t, Normalise(cached.value, ByGenre), false)
    ensures r.consulted && up.Answered? ==>
      && r.movies == Normalise(up.results.GetOr([]), ByGenre)
      && r.table == Store(t, Labels.RequestedGenre(emotionArg), up.results.GetOr([]), now, io)
    ensures !up.Answered? && !IsHit(Lookup(t, Labels.RequestedGenre(emotionArg), now, io)) ==> r.table == t && r.movies == Success([])
    ensures r.movies.Success? ==> AllDisplayable(r.movies.value, ByGenre)
    ensures forall k :: k in t && k != Labels.RequestedGenre(emotionArg) ==> k in r.table && r.table[k] == t[k]
    ensures r.table != t ==> up.Answered? && r.consulted
  {
    var f := Recommend(t, Labels.RequestedGenre(emotionArg), now, io, up);
    var movies := if |f.records| == 0 then Success([]) else Normalise(f.records, ByGenre);
    Reply(f.table, movies, f.consulted)
  }

  /**
   * The genre cache holds raw records, so an answer the normalising loop
   * raises on is cached anyway and every request for the rest of the hour
   * raises the same exception without asking the provider.
   */
  lemma RaisingAnswerRepeats(t: Table<seq<Value>>, emotionArg: Option<string>, now: int, results: seq<Value>, later: int, up: Upstream)
    requires !IsHit(Lookup(t, Labels.RequestedGenre(emotionArg), now, Healthy))
    requires |results| > 0 && Normalise(results, ByGenre).Failure?
    requires later - Stamp(now) < FreshWindow
    ensures var first := GetMovies(t, emotionArg, now, Healthy, Answered(Some(results)));
      && first.movies.Failure?
      && GetMovies(first.table, emotionArg, later, Healthy, up) == Reply(first.table, first.movies, false)
  {
    RecommendTwice(t, Labels.RequestedGenre(emotionArg), now, results, later, up);
  }

  /** The search cache key: the `query` parameter (empty when absent) without surrounding whitespace. */
  function SearchKey(queryArg: Option<string>): string {
    Strip(queryArg.GetOr(""))
  }

  /** `/search_movie`: a non-empty stripped query, served from the cache or normalised from the provider and cached. */
  function SearchMovie(t: Table<seq<Movie>>, queryArg: Option<string>, now: int, io: Storage, up: Upstream): (r: Reply<seq<Movie>>)
    ensures SearchKey(queryArg) == [] ==> r == Reply(t, Success([]), false)
    ensures IsHit(Lookup(t, SearchKey(queryArg), now, io)) ==> r.table == t && !r.consulted
    ensures SearchKey(queryArg) != [] && IsHit(Lookup(t, SearchKey(queryArg), now, io)) ==>
      r.movies == Success(Lookup(t, SearchKey(queryArg), now, io).value)
    ensures r.consulted && up.Answered? ==>
      var n := Normalise(up.results.GetOr([]), BySearch);
      && r.movies == n
      && r.table == (if n.Success? then Store(t, SearchKey(queryArg), n.value, now, io) else t)
    ensures r.consulted <==> SearchKey(queryArg) != [] && !IsHit(Lookup(t, SearchKey(queryArg), now, io)) && !up.NotConfigured?
    ensures forall k :: k in t && k != SearchKey(queryArg) ==> k in r.table && r.table[k] == t[k]
    ensures r.table != t ==> up.Answered? && r.movies.Success? && r.table == Store(t, SearchKey(queryArg), r.movies.value, now, io)
    ensures r.movies.Failure? ==> r.table == t
    ensures SearchKey(queryArg) != [] && !IsHit(Lookup(t, SearchKey(queryArg), now, io)) && !up.Answered? ==> r == Reply(t, Success([]), up.Failed?)
  {
    SearchByKey(t, SearchKey(queryArg), now, io, up)
  }

  /** The body of `/search_movie` once the query has been read and stripped. */
  function SearchByKey(t: Table<seq<Movie>>, query: string, now: int, io: Storage, up: Upstream): Reply<seq<Movie>> {
    if |query| == 0 then Reply(t, Success([]), false)
    else
      var cached := Lookup(t, query, now, io);
      if IsHit(cached) then Reply(t, Success(cached.value), false)
      else match up
        case NotConfigured => Reply(t, Success([]), false)
        case Failed => Reply(t, Success([]), true)
        case Answered(results) =>
          match (if results.Some? then Normalise(results.value, BySearch) else Success([]))
          case Failure(e) => Reply(t, Failure(e), true)
          case Success(ms) => Reply(Store(t, query, ms, now, io), Success(ms), true)
  }

  /** Every cached search result is a list of displayable movies. */
  predicate SearchTableDisplayable(t: Table<seq<Movie>>) {
    forall k :: k in t ==> AllDisplayable(t[k].payload, BySearch)
  }

  /**
   * The search cache holds normalised movies: a search keeps every cached
   * list displayable, and so its own reply is displayable even when served
   * from the cache.
   */
  lemma SearchKeepsTableDisplayable(t: Table<seq<Movie>>, queryArg: Option<string>, now: int, io: Storage, up: Upstream)
    requires SearchTableDisplayable(t)
    ensures var r := SearchMovie(t, queryArg, now, io, up);
      && SearchTableDisplayable(r.table)
      && (r.movies.Success? ==> AllDisplayable(r.movies.value, BySearch))
  {
  }

  /**
   * After a miss answered with records that normalise to a non-empty list,
   * the same search within the hour returns that list from the cache.
   */
  lemma SearchTwice(t: Table<seq<Movie>>, query: string, now: int, results: seq<Value>, later: int, up: Upstream)
    requires Strip(query) != []
    requires !IsHit(Lookup(t, Strip(query), now, Healthy))
    requires Normalise(results, BySearch).Success? && |Normalise(results, BySearch).value| > 0
    requires later - Stamp(now) < FreshWindow
    ensures var first := SearchMovie(t, Some(query), now, Healthy, Answered(Some(results)));
      && first.movies == Normalise(results, BySearch)
      && SearchMovie(first.table, Some(query), later, Healthy, up) == Reply(first.table, first.movies, false)
  {
    var ms := Normalise(results, BySearch).value;
    LookupAfterStore(t, Strip(query), ms, now, Strip(query), later, Healthy, Healthy);
  }

  /** Surrounding whitespace does not matter: a query and its stripped form share one cache entry and one reply. */
  lemma PaddedQuerySharesEntry(t: Table<seq<Movie>>, query: string, now: int, io: Storage, up: Upstream)
    ensures SearchMovie(t, Some(query), now, io, up) == SearchMovie(t, Some(Strip(query)), now, io, up)
  {
    StripIdempotent(query);
  }
}

=== FILE: text.dfy ===
/**
 * String helpers the application uses through Python built-ins: the character
 * classes of its regular expressions, stripping whitespace, turning spaces
 * into plus signs, and shortening long descriptions.
 */
module Text {

  /**
   * Python's whitespace (`str.isspace()`, which `str.strip()` removes and the
   * `\s` class of a `str` pattern matches).
   */
  predicate IsSpace(c: char) {
    || '\t' <= c <= '\r'
    || '\U{1C}' <= c <= ' '
    || c == '\U{85}' || c == '\U{A0}' || c == '\U{1680}'
    || '\U{2000}' <= c <= '\U{200A}'
    || c == '\U{2028}' || c == '\U{2029}' || c == '\U{202F}' || c == '\U{205F}' || c == '\U{3000}'
  }

  /** The pattern class `[a-z]`: a code-point range, not a Unicode category. */
  predicate IsAsciiLower(c: char) {
    'a' <= c <= 'z'
  }

  /** The pattern class `[A-Z]`. */
  predicate IsAsciiUpper(c: char) {
    'A' <= c <= 'Z'
  }

  /** The pattern class `\d`, restricted to the ASCII digits. */
  predicate IsDigit(c: char) {
    '0' <= c <= '9'
  }

  /** The pattern class `\w`, restricted to ASCII letters, digits and the underscore. */
  predicate IsWordChar(c: char) {
    IsAsciiLower(c) || IsAsciiUpper(c) || IsDigit(c) || c == '_'
  }

  /** The number of whitespace characters `s` starts with. */
  function LeadingSpaces(s: string): (n: nat)
    ensures n <= |s|
    ensures forall i :: 0 <= i < n ==> IsSpace(s[i])
    ensures n < |s| ==> !IsSpace(s[n])
  {
    if |s| > 0 && IsSpace(s[0]) then 1 + LeadingSpaces(s[1..]) else 0
  }

  /** The number of whitespace characters `s` ends with. */
  function TrailingSpaces(s: string): (n: nat)
    ensures n <= |s|
    ensures forall i :: |s| - n <= i < |s| ==> IsSpace(s[i])
    ensures n < |s| ==> !IsSpace(s[|s| - n - 1])
  {
    if |s| > 0 && IsSpace(s[|s| - 1]) then 1 + TrailingSpaces(s[..|s| - 1]) else 0
  }

  /**
   * Python's strip: the one slice of `s` that neither starts nor ends with
   * whitespace and outside of which there is only whitespace.
   */
  function Strip(s: string): (r: string)
    ensures LeadingSpaces(s) + |r| <= |s|
    ensures r == s[LeadingSpaces(s)..LeadingSpaces(s) + |r|]
    ensures forall i :: 0 <= i < LeadingSpaces(s) ==> IsSpace(s[i])
    ensures forall i :: LeadingSpaces(s) + |r| <= i < |s| ==> IsSpace(s[i])
    ensures |r| > 0 ==> !IsSpace(r[0]) && !IsSpace(r[|r| - 1])
  {
    var rest := s[LeadingSpaces(s)..];
    rest[..|rest| - TrailingSpaces(rest)]
  }

  /** A string strips to nothing exactly when every character of it is whitespace. */
  lemma StripEmptyIff(s: string)
    ensures Strip(s) == [] <==> forall i :: 0 <= i < |s| ==> IsSpace(s[i])
  {
    if Strip(s) != [] {
      var k := LeadingSpaces(s);
      assert s[k] == Strip(s)[0];
    }
  }

  /** Stripping twice is stripping once. */
  lemma StripIdempotent(s: string)
    ensures Strip(Strip(s)) == Strip(s)
  {
    var r := Strip(s);
    if |r| > 0 {
      assert LeadingSpaces(r) == 0;
      assert TrailingSpaces(r) == 0;
    }
  }

  /** Replacing spaces: every ASCII space becomes a plus sign, nothing else moves. */
  function ReplaceSpaces(s: string): (r: string)
    ensures |r| == |s|
    ensures forall i :: 0 <= i < |s| ==> r[i] == (if s[i] == ' ' then '+' else s[i])
    ensures ' ' !in r
  {
    if |s| == 0 then "" else [if s[0] == ' ' then '+' else s[0]] + ReplaceSpaces(s[1..])
  }

  /** Descriptions longer than this are shortened. */
  const DescriptionLimit: nat := 100

  /** How many characters of a long description survive. */
  const KeptPrefix: nat := 97

  /** The marker appended to a shortened description. */
  const Ellipsis: string := "..."

  /** A description longer than 100 characters becomes its first 97 and an ellipsis; a shorter one stays. */
  function Shorten(s: string): (r: string)
    ensures |r| <= DescriptionLimit
    ensures |s| <= DescriptionLimit ==> r == s
    ensures |s| > DescriptionLimit ==> |r| == DescriptionLimit && r[..KeptPrefix] == s[..KeptPrefix] && r[KeptPrefix..] == Ellipsis
  {
    if |s| > DescriptionLimit then s[..KeptPrefix] + Ellipsis else s
  }

  /** A shortened description is left alone by a second shortening. */
  lemma ShortenIdempotent(s: string)
    ensures Shorten(Shorten(s)) == Shorten(s)
  {
  }
}

=== FILE: wrappers.dfy ===
/** The `Option` and `Result` datatypes shared by the rest of the model. */
module Wrappers {

  /** A value that may be missing: Python's `None` versus a present value. */
  datatype Option<+T> = None | Some(value: T) {

    /** The encapsulated value, or `default` when there is none. */
    function GetOr(default: T): T {
      match this
      case Some(v) => v
      case None => default
    }
  }

  /** Either a computed value or the exception that aborted the computation. */
  datatype Result<+R, +E> = Success(value: R) | Failure(error: E)
}
